=== FILE: README.md ===
# College schedule: day list, event form and reminder scan

A Dafny model of the logic inside `schedule_app.py`, a desktop timetable
for students. Events are rows of one `schedule` table: date, course, time,
location, notes, category, a recurrence type, an optional recurrence end,
the weekdays ticked for "Weekly (Specific Days)", and a reminder column.
The model covers four parts of that file:

- **The day list** (`ScheduleApp.update_event_list`). For the date picked in
  the calendar it decides which stored events appear. The model has the
  same per-row decision, step by step (`Visibility.ShowEvent`). It also has
  the rule that step-by-step decision amounts to (`Visibility.Visible`).
  Last, it models the loop over the rows (`Visibility.DayList`). A row whose
  date `strptime` cannot read ends that loop.
- **The event form** (`EventManagerWindow`). This covers field validation,
  the row built from the form, and the add, update and delete writes. It
  also covers the "events on this date" list, which matches the date text
  exactly.
- **The recurrence-days column**. It holds the ticked weekdays joined by
  commas in week order. It is read back by splitting on commas and
  stripping each piece.
- **The reminder scan**. A background loop, sleeping 60 seconds after each
  scan, selects the rows
  that have a reminder and whose `datetime(date || ' ' || time)` falls
  within the next 30 minutes, both ends included. It announces each one and
  sets its reminder to NULL. `Reminders.ScanStep` models one pass.
  `Reminders.Scans` models a run of passes with one scan at every minute and no minute skipped.

Supporting modules model the library behaviour the application relies on:

- `Text`: Python's `str.strip`, `str.split` and `str.join`.
- `Calendar`: `datetime.date` ordering, `toordinal`, `weekday()` and the
  English `%A` names.
- `DateText`: two readings of date text. One is `strptime` with `%Y-%m-%d`
  and `%H:%M`, including its one-digit and space-padded fields. The other
  is SQLite's stricter `YYYY-MM-DD HH:MM`. SQLite datetimes become minute
  stamps, `day number * 1440 + hour * 60 + minute`. This makes the
  `'+30 minutes'` window cross midnight and month ends.

The table is a `map<int, Event>` keyed by row id. `SELECT *` is a sequence
of rows that lists each stored row once, in an order left open.

### Behaviour worth knowing

- **An unreadable stored date ends the listing.** `strptime` at line 189
  raises out of the loop. The rows listed before it stay listed, and the
  rows after it are never considered (`Visibility.DayList`,
  `Visibility.UnreadableRowCutsListing`).
- **The recurrence end and the type test are alternatives.** The end test
  sets the flag first, and the type branches can only set it to true. So a
  recurring event shows from its own date on when the end test passes OR
  the type test passes (`Visibility.ShownWhileEndPermits`,
  `Visibility.AfterEndOnlyTypeTest`). Two consequences follow:
  - A "Weekly" event without an end date shows on every day
    (`Visibility.WeeklyWithoutEndShowsDaily`,
    `Visibility.WeeklyShownOffItsWeekday`).
  - A "Daily" event shows even after its end date
    (`Visibility.DailyIgnoresEnd`, `Visibility.DailyShownPastItsEnd`).
- **A blank reminder field is stored as `0`** (line 439). That is not
  NULL, so every row the form writes is armed for a reminder
  (`Forms.BuildRecord`).
- **Some dates and times pass the form but are never reminded.**
  `strptime` accepts a time such as `9:30` and a date such as `2024-1-5`
  or `2024-01- 5`. SQLite reads no datetime from either, so such an event
  is listed but never reminded (`Reminders.ShortTimeNeverReminded`,
  `Reminders.ShortDateNeverReminded`, `DateText.UnpaddedTimeOnlyForPython`,
  `DateText.UnpaddedDateOnlyForPython`).
- **The "events on this date" list compares text.** It matches the stored
  date character for character, so a row stored as `2024-01-05` is not
  listed for the entry `2024-1-5` (`Forms.ListComparesText`).

## Model

| member | source | states |
|---|---|---|
| Text.StripSpec | schedule_app.py:411-414 | stripping removes exactly the whitespace at both ends of a field, and leaves it empty exactly when the field is all whitespace |
| Text.StripIdempotent | schedule_app.py:375 | stripping a stripped field changes nothing, so the stored date and the re-stripped entry compare equal |
| Text.Split | schedule_app.py:215 | splitting on a comma never yields an empty list, no piece holds a comma, and joining the pieces with commas gives the text back |
| Text.SplitJoin | schedule_app.py:444 | splitting a comma-join of comma-free pieces gives back exactly those pieces |
| Calendar.DayNumberOrder | schedule_app.py:193-197 | the calendar order the listing compares dates by agrees with the order of their day numbers, and two dates are equal exactly when their day numbers are |
| Calendar.NextDayWeekday | schedule_app.py:212 | weekdays advance by one from each day to the next, Sunday to Monday |
| Calendar.SameWeekdayIffWeeksApart | schedule_app.py:212 | two dates share a weekday exactly when they are a whole number of weeks apart |
| DateText.ParseDate | schedule_app.py:418 | any date `strptime` accepts is a real calendar date in years 1 to 9999 and is written with 8 to 10 characters |
| DateText.ParseTime | schedule_app.py:423 | any time `strptime` accepts has hour 0-23 and minute 0-59 and is written with 3 to 5 characters |
| DateText.ParseFormatDate | schedule_app.py:418 | the zero-padded text of every valid date reads back as that date |
| DateText.ParseFormatTime | schedule_app.py:423 | the zero-padded text of every valid time reads back as that time |
| DateText.SqlDateIsParsed | schedule_app.py:235 | where SQLite reads a real calendar date, `strptime` reads the same date |
| DateText.ParsedDateIsSql | schedule_app.py:235 | where `strptime` reads a ten-character date without a space-padded day, SQLite reads the same date |
| DateText.TimeGrammarsAgree | schedule_app.py:235 | on five-character times SQLite and `strptime` read the same hour and minute, apart from SQLite's extra hour 24 |
| DateText.UnpaddedDateOnlyForPython | schedule_app.py:418 | `2024-1-5` passes form validation but is not a date to SQLite |
| DateText.UnpaddedTimeOnlyForPython | schedule_app.py:423 | `9:30` passes form validation but is not a time to SQLite |
| DateText.SqlDateTime | schedule_app.py:235 | SQLite's datetime of the date, a space and the time is non-NULL exactly when the date is a ten-character SQLite date and the time a five-character SQLite time, and is then that date's minute stamp plus that time's minutes |
| Events.TickedNamesSpec | schedule_app.py:442-444 | the names written are weekday names, exactly those of the ticked weekdays, and none are written when nothing is ticked |
| Events.TickedNamesInWeekOrder | schedule_app.py:319-322 | the names written come in Monday-to-Sunday order, the order the boxes are created in: each later name has a strictly larger weekday index |
| Events.ParseDays | schedule_app.py:215 | the day list is empty exactly when the column is NULL or "", and no day read holds a comma |
| Events.DaysRoundTrip | schedule_app.py:215 | reading back the joined day names gives exactly the ticked weekdays; no ticks store "" and read back as no days |
| Visibility.ShowEvent | schedule_app.py:189-223 | the flag the code computes row by row (set by the end test, then only ever raised by a type branch) is true exactly when the event is visible by the effective rule |
| Visibility.ReadablePrefix | schedule_app.py:185-189 | counts the leading rows whose date reads, up to the first that does not |
| Visibility.VisibleIds | schedule_app.py:224-225 | the ids listed are exactly those of visible rows, and there are no more entries than rows |
| Visibility.VisibleIdsDistinct | schedule_app.py:224-225 | rows with distinct ids give a list with no id twice, so each row is listed at most once |
| Visibility.DayList | schedule_app.py:183-225 | the listing lists the visible rows in table order up to the first unreadable date, and completes exactly when there is none |
| Visibility.DayListOverStore | schedule_app.py:183-225 | when every stored date is readable the listing completes and lists exactly the stored events visible on the date, whatever order the rows come in |
| Visibility.UnreadableRowCutsListing | schedule_app.py:189 | no row at or after an unreadable date is listed |
| Visibility.NonRecurringOnlyOnItsDate | schedule_app.py:192-194 | an event with no recurrence (NULL, blank or "None") shows exactly on its own date |
| Visibility.NeverBeforeItsDate | schedule_app.py:197 | no event shows on a date before its own |
| Visibility.ShownWhileEndPermits | schedule_app.py:197-208 | a recurring event of any type, even an unknown one, shows on every date from its own on when its end is absent, empty, unreadable, or not yet passed |
| Visibility.DailyIgnoresEnd | schedule_app.py:209-210 | a "Daily" event shows exactly on the dates from its own on, whatever its end |
| Visibility.AfterEndOnlyTypeTest | schedule_app.py:211-223 | past a readable end, "Weekly" needs the same weekday, "Weekly (Specific Days)" needs the target's name in the day list, "Monthly" the same day, "Yearly" the same month and day; an unknown type is hidden |
| Visibility.WeeklyWithoutEndShowsDaily | schedule_app.py:198-212 | a "Weekly" event without an end shows on every date from its own on |
| Visibility.MonthlyOn31stSkipsShortMonths | schedule_app.py:218-220 | past its end, a "Monthly" event on the 31st is hidden in every month shorter than 31 days |
| Visibility.WeeklyShownOffItsWeekday | schedule_app.py:198-213 | a "Weekly" event from Wednesday 2024-01-10 with no end shows on Thursday 2024-01-11 |
| Visibility.DailyShownPastItsEnd | schedule_app.py:198-210 | a "Daily" event ending 2024-01-15 still shows on 2024-01-16 |
| Forms.Validate | schedule_app.py:410-428 | a form is accepted exactly when date, course, time and location are non-blank and the date and time read, and then the date is a real calendar date and the time a 24-hour time; otherwise the first failing check in that order is reported |
| Forms.BuildRecord | schedule_app.py:433-445 | every written row has a reminder, a blank reminder field gives 0, the row records the stripped recurrence choice and the stripped recurrence end, a "Weekly (Specific Days)" row stores the ticked days joined with commas, and only that choice stores a non-empty day list |
| Forms.AddEvent | schedule_app.py:430-456 | an accepted form adds one new row holding the built record and leaves every other row as it was; a rejected one writes nothing and reports why |
| Forms.UpdateEvent | schedule_app.py:458-487 | with no selection nothing is written; otherwise an accepted form overwrites only the selected row (a selected id no longer stored changes nothing) |
| Forms.DeleteEvent | schedule_app.py:489-501 | with no selection nothing is deleted and a warning is reported; with a selection the delete succeeds, a declined confirmation keeps every row, and a confirmed one removes exactly the selected row |
| Forms.DeleteUndoesAdd | schedule_app.py:430-501 | a confirmed delete of a freshly added row gives back the table as it was before the add |
| Forms.ListByExactDate | schedule_app.py:375-376 | the list holds stored ids only, and a stored row is in it exactly when its date text equals the stripped entry |
| Forms.ListIgnoresSurroundingSpaces | schedule_app.py:374-376 | an entry and its stripped form list the same rows |
| Forms.ListComparesText | schedule_app.py:375-376 | a row stored as `2024-01-05` is not listed for `2024-1-5`, although `strptime` reads both as the same day |
| Forms.AddThenListByDate | schedule_app.py:373-376 | after an accepted add the "events on this date" list for the form's date gains exactly the new row, which holds the stripped entries |
| Forms.RejectedFormWritesNothing | schedule_app.py:458-463 | a form that fails validation is neither added nor used to update |
| Forms.AcceptedRecordIsReadable | schedule_app.py:410-428 | a row written from an accepted form has a date the listing reads as the entered date, and a readable time |
| Forms.NoneChoiceIsOneOff | schedule_app.py:441 | choosing "None" in the recurrence box writes a one-off event |
| Forms.SpecificDaysMatchTicks | schedule_app.py:442-444 | a "Weekly (Specific Days)" row written from the form matches a date exactly when that date's weekday was ticked |
| Forms.SpecificDaysStoredInWeekOrder | schedule_app.py:442-444 | a "Weekly (Specific Days)" row reads back as the ticked weekday names, all of them weekday names, in Monday-to-Sunday order |
| Forms.OtherChoicesStoreNoDays | schedule_app.py:442-444 | every other recurrence choice writes a day list that reads back as empty |
| Reminders.ScanStep | schedule_app.py:233-243 | one scan announces exactly the armed rows starting within [now, now + 30 min], each once and as stored; it clears their reminders and changes nothing else |
| Reminders.Announce | schedule_app.py:238-243 | the loop over the selected rows announces each exactly once and clears exactly their reminders |
| Reminders.DisarmChangesOnlyReminders | schedule_app.py:242 | clearing reminders touches only the reminder column of the given rows |
| Reminders.SecondScanFiresNothing | schedule_app.py:234-243 | a scan repeated at the same minute selects nothing |
| Reminders.FiresAtMostOnce | schedule_app.py:234-243 | no later scan, at any minute, selects a row an earlier scan announced |
| Reminders.Scans | schedule_app.py:232-244 | a run of scans records one set of announced ids per minute, each a subset of the stored ids, and keeps the same rows |
| Reminders.ScansDisarmAnnounced | schedule_app.py:232-244 | a run leaves the table as one clearing of the reminders of everything it announced, and it announces only rows that had a reminder when it began |
| Reminders.ScansAnnounceOnce | schedule_app.py:232-244 | no row is announced by two scans of one run |
| Reminders.DisarmedStaysSilent | schedule_app.py:232-244 | a row without a reminder is never announced over a run of scans |
| Reminders.ExactlyOnceOverRun | schedule_app.py:232-244 | over minute-by-minute scans that reach the half hour before an armed row's start, the row is announced exactly once, at the first scan at or after start minus 30 minutes, whatever its reminder value |
| Reminders.PastStartNeverFires | schedule_app.py:234-237 | a row whose start precedes the first scan is never announced |
| Reminders.NowReadsBack | schedule_app.py:233-236 | SQLite reads the scan's own `YYYY-MM-DD HH:MM` text back as that minute |
| Reminders.WindowCrossesMidnight | schedule_app.py:234-236 | at 23:50 an armed event at 00:10 the next day is already due |
| Reminders.FormRowStartsAsValidated | schedule_app.py:234-236 | a form row with a zero-padded date and time starts, for the scan, at the minute validation read |
| Reminders.ShortTimeNeverReminded | schedule_app.py:423 | a form row whose time has fewer than five characters is armed but never due |
| Reminders.ShortDateNeverReminded | schedule_app.py:418 | a form row whose date has fewer than ten characters or a space-padded day is armed but never due |

## Left out

- The tkinter and tkcalendar interface is not modelled: layout, styles, message boxes, the month label, and how the tree and list boxes are filled. Its only role here is to supply inputs and show outputs.
- The search bar is not modelled. It is connected to nothing.
- The reminder thread, `time.sleep(60)`, the `running` flag and the `root.after` hand-off are not modelled. The scan minute is a parameter.
- `Reminders.Scans` models a run with a scan at every minute. The loop sleeps 60 seconds after each scan (line 244), so a real cycle takes a little longer and now and then skips a minute. `Reminders.ScansAnnounceOnce`, `Reminders.ScansDisarmAnnounced`, `Reminders.ExactlyOnceOverRun`, `Reminders.DisarmedStaysSilent` and `Reminders.PastStartNeverFires` are proved only for runs without a skipped minute.
- The clock read `datetime.now()` is not modelled. The scan minute is a parameter.
- The SQLite engine, its connections and its id assignment are not modelled. `Forms.AddEvent` takes the fresh id the table would assign.
- `Forms.AddEvent` does not model the storage-error path (`except Exception`). None of the written values can violate the table's constraints.
- `Forms.UpdateEvent` does not model the storage-error path either, for the same reason.
- `Forms.DeleteEvent` does not model the storage-error path (lines 500-501) either, for the same reason.
- The same `try` blocks also wrap the refresh of the day list (lines 454, 485 and 499). That refresh raises at line 189 on an unreadable stored date, after the commit. The table the model returns is then still right; only the message shown differs, and messages are not modelled.
- `DateText.SqlDateTime` reads only the `YYYY-MM-DD HH:MM` form the application writes. SQLite's other accepted forms (seconds, a `T` separator, time zones, Julian numbers) count as NULL.
- The scan's `BETWEEN` on SQLite's datetime text is modelled on integer minutes. Both order the same way for SQLite's fixed-width output in years 0 to 9999.
- `Reminders.ScanStep` does not model a year past 9999 at the end of the window.
- `DateText.ParseDate` and `DateText.ParseTime` accept ASCII digits only. `strptime` also accepts other Unicode decimal digits.
- `Calendar.WeekdayNames` is the English list. `%A` depends on the locale.
- Numeric conversion of the reminder text into the `INTEGER` column is not modelled. Only whether the column is NULL matters.
- `load_selected_event` is not modelled. It copies a stored row back into the form and is interface state.
- The date picked in the calendar is taken as a valid date (the `Date` a `Visibility` member receives). The calendar widget always produces one.
- `Reminders.Scans` states in its own contract only the shape of a run. What a run announces and clears is stated by the lemmas about it.

=== FILE: calendar.dfy ===
/** Proleptic Gregorian dates as Python's `datetime.date` sees them: a
    (year, month, day) triple ordered lexicographically, an ordinal day
    number (0001-01-01 is day 1) and `weekday()` with Monday = 0. */
module Calendar {

  datatype Date = Date(year: int, month: int, day: int)

  /** A weekday as Python numbers it: Monday = 0 … Sunday = 6. */
  type WeekdayIndex = w: int | 0 <= w < 7

  predicate IsLeapYear(y: int) {
    y % 4 == 0 && (y % 100 != 0 || y % 400 == 0)
  }

  function DaysInYear(y: int): int {
    if IsLeapYear(y) then 366 else 365
  }

  function DaysInMonth(y: int, m: int): (n: int)
    requires 1 <= m <= 12
    ensures 28 <= n <= 31
  {
    if m == 2 then (if IsLeapYear(y) then 29 else 28)
    else if m == 4 || m == 6 || m == 9 || m == 11 then 30
    else 31
  }

  /** The dates `datetime.date` can represent. */
  predicate ValidDate(d: Date) {
    && 1 <= d.year <= 9999
    && 1 <= d.month <= 12
    && 1 <= d.day <= DaysInMonth(d.year, d.month)
  }

  /** Python's `a < b` on dates. */
  predicate Before(a: Date, b: Date) {
    || a.year < b.year
    || (a.year == b.year && a.month < b.month)
    || (a.year == b.year && a.month == b.month && a.day < b.day)
  }

  /** Python's `a <= b` on dates. */
  predicate OnOrBefore(a: Date, b: Date) {
    Before(a, b) || a == b
  }

  /** Days in the months of a common year that precede month `m`. */
  const CommonDaysBeforeMonth: seq<int> :=
    [0, 31, 59, 90, 120, 151, 181, 212, 243, 273, 304, 334, 365]

  function DaysBeforeMonth(y: int, m: int): int
    requires 1 <= m <= 13
  {
    CommonDaysBeforeMonth[m - 1] + (if m > 2 && IsLeapYear(y) then 1 else 0)
  }

  /** Days from 0001-01-01 to January 1st of year `y` (negative before
      year 1, which SQLite's year 0000 reaches). */
  function DaysBeforeYear(y: int): int {
    var p := y - 1;
    p * 365 + p / 4 - p / 100 + p / 400
  }

  /** Python's `date.toordinal()`. The formula also accepts a day past the
      end of its month, which is how SQLite normalises such dates. */
  function DayNumber(d: Date): int
    requires 1 <= d.month <= 12
  {
    DaysBeforeYear(d.year) + DaysBeforeMonth(d.year, d.month) + d.day
  }

  /** Python's `date.weekday()`: 0001-01-01 was a Monday. */
  function Weekday(d: Date): WeekdayIndex
    requires 1 <= d.month <= 12
  {
    (DayNumber(d) + 6) % 7
  }

  /** The English names `strftime('%A')` produces, Monday first. */
  const WeekdayNames: seq<string> :=
    ["Monday", "Tuesday", "Wednesday", "Thursday", "Friday", "Saturday", "Sunday"]

  function WeekdayName(d: Date): string
    requires 1 <= d.month <= 12
  {
    WeekdayNames[Weekday(d)]
  }

  /** The day after `d`, as `d + timedelta(days=1)`. */
  function NextDay(d: Date): (n: Date)
    requires ValidDate(d)
    ensures d.year < 9999 || d.month < 12 || d.day < 31 ==> ValidDate(n)
    ensures Before(d, n)
  {
    if d.day < DaysInMonth(d.year, d.month) then Date(d.year, d.month, d.day + 1)
    else if d.month < 12 then Date(d.year, d.month + 1, 1)
    else Date(d.year + 1, 1, 1)
  }

  // ---------------------------------------------------------------------
  // Day numbers follow the calendar order.

  /** Floor division by a leap-rule divisor goes up by one exactly when
      the dividend reaches a multiple of it. */
  lemma FloorStep(p: int, k: int)
    requires k == 4 || k == 100 || k == 400
    ensures (p + 1) / k == p / k + (if (p + 1) % k == 0 then 1 else 0)
  {
    if k == 4 {
    } else if k == 100 {
    } else {
    }
  }

  /** Each year adds its own length to the running day count, which is how
      the closed form of `DaysBeforeYear` encodes the leap-year rule. */
  lemma DaysBeforeYearStep(y: int)
    ensures DaysBeforeYear(y + 1) == DaysBeforeYear(y) + DaysInYear(y)
  {
    FloorStep(y - 1, 4);
    FloorStep(y - 1, 100);
    FloorStep(y - 1, 400);
  }

  /** Years are at least 365 days long, so later years start later. */
  lemma {:induction false} DaysBeforeYearGrows(y1: int, y2: int)
    requires y1 <= y2
    ensures DaysBeforeYear(y1) + 365 * (y2 - y1) <= DaysBeforeYear(y2)
    decreases y2 - y1
  {
    if y1 < y2 {
      DaysBeforeYearStep(y1);
      DaysBeforeYearGrows(y1 + 1, y2);
    }
  }

  lemma DaysBeforeMonthStep(y: int, m: int)
    requires 1 <= m <= 12
    ensures DaysBeforeMonth(y, m + 1) == DaysBeforeMonth(y, m) + DaysInMonth(y, m)
  {
  }

  lemma DaysBeforeMonthGrows(y: int, m1: int, m2: int)
    requires 1 <= m1 < m2 <= 13
    ensures DaysBeforeMonth(y, m1) + DaysInMonth(y, m1) <= DaysBeforeMonth(y, m2)
  {
  }

  /** A valid date's day number lies within its year. */
  lemma DayNumberWithinYear(d: Date)
    requires ValidDate(d)
    ensures DaysBeforeYear(d.year) < DayNumber(d) <= DaysBeforeYear(d.year + 1)
  {
    DaysBeforeYearStep(d.year);
    DaysBeforeMonthGrows(d.year, d.month, 13);
  }

  /** The calendar order on valid dates is the order of their day numbers,
      and distinct valid dates have distinct day numbers. */
  lemma DayNumberOrder(a: Date, b: Date)
    requires ValidDate(a) && ValidDate(b)
    ensures Before(a, b) <==> DayNumber(a) < DayNumber(b)
    ensures a == b <==> DayNumber(a) == DayNumber(b)
  {
    if Before(a, b) {
      DayNumberBefore(a, b);
    } else if Before(b, a) {
      DayNumberBefore(b, a);
    }
  }

  lemma DayNumberBefore(a: Date, b: Date)
    requires ValidDate(a) && ValidDate(b)
    requires Before(a, b)
    ensures DayNumber(a) < DayNumber(b)
  {
    if a.year < b.year {
      DayNumberWithinYear(a);
      DayNumberWithinYear(b);
      DaysBeforeYearGrows(a.year + 1, b.year);
    } else if a.month < b.month {
      DaysBeforeMonthGrows(a.year, a.month, b.month);
    }
  }

  /** The next day is exactly one day number later. */
  lemma NextDayNumber(d: Date)
    requires ValidDate(d)
    ensures DayNumber(NextDay(d)) == DayNumber(d) + 1
  {
    if d.day == DaysInMonth(d.year, d.month) {
      DaysBeforeMonthStep(d.year, d.month);
      if d.month == 12 {
        DaysBeforeYearStep(d.year);
      }
    }
  }

  /** Weekdays advance by one from each day to the next, Sunday to Monday. */
  lemma NextDayWeekday(d: Date)
    requires ValidDate(d)
    ensures Weekday(NextDay(d)) == (Weekday(d) + 1) % 7
  {
    NextDayNumber(d);
    ModSucc(DayNumber(d) + 6);
  }

  /** Two valid dates fall on the same weekday exactly when they are a
      whole number of weeks apart. */
  lemma SameWeekdayIffWeeksApart(a: Date, b: Date)
    requires ValidDate(a) && ValidDate(b)
    ensures Weekday(a) == Weekday(b) <==> (DayNumber(b) - DayNumber(a)) % 7 == 0
  {
    ModEq(DayNumber(a) + 6, DayNumber(b) + 6);
  }

  lemma ModSucc(x: int)
    ensures (x + 1) % 7 == (x % 7 + 1) % 7
  {
  }

  lemma ModEq(x: int, y: int)
    ensures x % 7 == y % 7 <==> (y - x) % 7 == 0
  {
  }
}

=== FILE: datetext.dfy ===
/** The two textual date/time grammars the application relies on.

    Python side: `datetime.strptime(s, '%Y-%m-%d')` and
    `datetime.strptime(s, '%H:%M')`. Each directive is a regular expression
    whose alternatives are tried in order (`%Y` = four digits, `%m` =
    `1[0-2]|0[1-9]|[1-9]`, `%d` = `3[01]|[12]\d|0[1-9]|[1-9]| [1-9]`,
    `%H` = `2[0-3]|[0-1]\d|\d`, `%M` = `[0-5]\d|\d`); the whole string must
    be consumed and the date must exist. Only ASCII digits are modelled.

    SQLite side: `datetime(date || ' ' || time)` in the reminder query,
    which reads exactly two digits per field (four for the year), accepts
    any day 1..31 and hour 0..24 and normalises overflow through the day
    count. Only the plain `YYYY-MM-DD HH:MM` shape is modelled. */
module DateText {
  import opened Options
  import opened Calendar

  predicate IsDigit(c: char) {
    '0' <= c <= '9'
  }

  function Digit(c: char): int
    requires IsDigit(c)
  {
    c as int - '0' as int
  }

  function DigitChar(n: int): (c: char)
    requires 0 <= n < 10
    ensures IsDigit(c) && Digit(c) == n
  {
    ('0' as int + n) as char
  }

  /** A time of day as hour and minute. */
  datatype TimeOfDay = TimeOfDay(hour: int, minute: int)

  predicate ValidTime(t: TimeOfDay) {
    0 <= t.hour < 24 && 0 <= t.minute < 60
  }

  /** A field read at some position: its value and where the rest starts. */
  datatype Field = Field(value: int, next: nat)

  // ---------------------------------------------------------------------
  // strptime directives

  /** `%m`: the first alternative of `1[0-2]|0[1-9]|[1-9]` matching at `i`. */
  function MonthField(s: string, i: nat): (f: Option<Field>)
    ensures f.Some? ==> 1 <= f.value.value <= 12 && i < f.value.next <= i + 2 && f.value.next <= |s|
  {
    if i + 1 < |s| && s[i] == '1' && '0' <= s[i + 1] <= '2' then Some(Field(10 + Digit(s[i + 1]), i + 2))
    else if i + 1 < |s| && s[i] == '0' && '1' <= s[i + 1] <= '9' then Some(Field(Digit(s[i + 1]), i + 2))
    else if i < |s| && '1' <= s[i] <= '9' then Some(Field(Digit(s[i]), i + 1))
    else None
  }

  /** `%d`: the first alternative of `3[01]|[12]\d|0[1-9]|[1-9]| [1-9]`
      matching at `i`. */
  function DayField(s: string, i: nat): (f: Option<Field>)
    ensures f.Some? ==> 1 <= f.value.value <= 31 && i < f.value.next <= i + 2 && f.value.next <= |s|
  {
    if i + 1 < |s| && s[i] == '3' && '0' <= s[i + 1] <= '1' then Some(Field(30 + Digit(s[i + 1]), i + 2))
    else if i + 1 < |s| && '1' <= s[i] <= '2' && IsDigit(s[i + 1]) then Some(Field(10 * Digit(s[i]) + Digit(s[i + 1]), i + 2))
    else if i + 1 < |s| && s[i] == '0' && '1' <= s[i + 1] <= '9' then Some(Field(Digit(s[i + 1]), i + 2))
    else if i < |s| && '1' <= s[i] <= '9' then Some(Field(Digit(s[i]), i + 1))
    else if i + 1 < |s| && s[i] == ' ' && '1' <= s[i + 1] <= '9' then Some(Field(Digit(s[i + 1]), i + 2))
    else None
  }

  /** `%H`: the first alternative of `2[0-3]|[0-1]\d|\d` matching at `i`. */
  function HourField(s: string, i: nat): (f: Option<Field>)
    ensures f.Some? ==> 0 <= f.value.value <= 23 && i < f.value.next <= i + 2 && f.value.next <= |s|
  {
    if i + 1 < |s| && s[i] == '2' && '0' <= s[i + 1] <= '3' then Some(Field(20 + Digit(s[i + 1]), i + 2))
    else if i + 1 < |s| && '0' <= s[i] <= '1' && IsDigit(s[i + 1]) then Some(Field(10 * Digit(s[i]) + Digit(s[i + 1]), i + 2))
    else if i < |s| && IsDigit(s[i]) then Some(Field(Digit(s[i]), i + 1))
    else None
  }

  /** `%M`: the first alternative of `[0-5]\d|\d` matching at `i`. */
  function MinuteField(s: string, i: nat): (f: Option<Field>)
    ensures f.Some? ==> 0 <= f.value.value <= 59 && i < f.value.next <= i + 2 && f.value.next <= |s|
  {
    if i + 1 < |s| && '0' <= s[i] <= '5' && IsDigit(s[i + 1]) then Some(Field(10 * Digit(s[i]) + Digit(s[i + 1]), i + 2))
    else if i < |s| && IsDigit(s[i]) then Some(Field(Digit(s[i]), i + 1))
    else None
  }

  /** Four ASCII digits starting at `i`. */
  predicate Digits4At(s: string, i: nat) {
    i + 4 <= |s| && IsDigit(s[i]) && IsDigit(s[i + 1]) && IsDigit(s[i + 2]) && IsDigit(s[i + 3])
  }

  function Number4(s: string, i: nat): (n: int)
    requires Digits4At(s, i)
    ensures 0 <= n <= 9999
  {
    1000 * Digit(s[i]) + 100 * Digit(s[i + 1]) + 10 * Digit(s[i + 2]) + Digit(s[i + 3])
  }

  /** Two ASCII digits starting at `i`. */
  predicate Digits2At(s: string, i: nat) {
    i + 2 <= |s| && IsDigit(s[i]) && IsDigit(s[i + 1])
  }

  function Number2(s: string, i: nat): (n: int)
    requires Digits2At(s, i)
    ensures 0 <= n <= 99
  {
    10 * Digit(s[i]) + Digit(s[i + 1])
  }

  /** `datetime.strptime(s, '%Y-%m-%d')`; `None` where Python raises
      `ValueError` (no match, unconverted data left, year 0 or a day past
      the end of the month). */
  function ParseDate(s: string): (r: Option<Date>)
    ensures r.Some? ==> ValidDate(r.value) && 8 <= |s| <= 10
  {
    if !Digits4At(s, 0) || |s| < 5 || s[4] != '-' then None
    else match MonthField(s, 5)
      case None => None
      case Some(m) =>
        if m.next >= |s| || s[m.next] != '-' then None
        else match DayField(s, m.next + 1)
          case None => None
          case Some(d) =>
            var y := Number4(s, 0);
            if d.next != |s| || y < 1 || d.value > DaysInMonth(y, m.value) then None
            else Some(Date(y, m.value, d.value))
  }

  /** `datetime.strptime(s, '%H:%M')`, as hour and minute. */
  function ParseTime(s: string): (r: Option<TimeOfDay>)
    ensures r.Some? ==> ValidTime(r.value) && 3 <= |s| <= 5
  {
    match HourField(s, 0)
    case None => None
    case Some(h) =>
      if h.next >= |s| || s[h.next] != ':' then None
      else match MinuteField(s, h.next + 1)
        case None => None
        case Some(m) =>
          if m.next != |s| then None else Some(TimeOfDay(h.value, m.value))
  }

  // ---------------------------------------------------------------------
  // Canonical text

  function Pad2(n: int): (s: string)
    requires 0 <= n < 100
    ensures |s| == 2 && Digits2At(s, 0) && Number2(s, 0) == n
  {
    [DigitChar(n / 10), DigitChar(n % 10)]
  }

  function Pad4(n: int): (s: string)
    requires 0 <= n < 10000
    ensures |s| == 4 && Digits4At(s, 0) && Number4(s, 0) == n
  {
    var hi, lo := Pad2(n / 100), Pad2(n % 100);
    assert Number4(hi + lo, 0) == 100 * Number2(hi, 0) + Number2(lo, 0);
    hi + lo
  }

  /** The zero-padded `YYYY-MM-DD` text the date pickers produce. */
  function FormatDate(d: Date): (s: string)
    requires ValidDate(d)
    ensures |s| == 10
  {
    Pad4(d.year) + "-" + Pad2(d.month) + "-" + Pad2(d.day)
  }

  /** The zero-padded `HH:MM` text. */
  function FormatTime(t: TimeOfDay): (s: string)
    requires ValidTime(t)
    ensures |s| == 5
  {
    Pad2(t.hour) + ":" + Pad2(t.minute)
  }

  // ---------------------------------------------------------------------
  // SQLite's reading of date || ' ' || time

  /** SQLite's `YYYY-MM-DD`: exactly four, two and two digits, month 1..12,
      day 1..31 whatever the month. */
  function SqlDate(s: string): (r: Option<Date>)
    ensures r.Some? ==> 0 <= r.value.year <= 9999 && 1 <= r.value.month <= 12 && 1 <= r.value.day <= 31
  {
    if |s| == 10 && Digits4At(s, 0) && s[4] == '-' && Digits2At(s, 5) && s[7] == '-' && Digits2At(s, 8)
       && 1 <= Number2(s, 5) <= 12 && 1 <= Number2(s, 8) <= 31
    then Some(Date(Number4(s, 0), Number2(s, 5), Number2(s, 8)))
    else None
  }

  /** SQLite's `HH:MM`: exactly two and two digits, hour 0..24, minute 0..59. */
  function SqlTime(s: string): (r: Option<TimeOfDay>)
    ensures r.Some? ==> 0 <= r.value.hour <= 24 && 0 <= r.value.minute <= 59
  {
    if |s| == 5 && Digits2At(s, 0) && s[2] == ':' && Digits2At(s, 3)
       && Number2(s, 0) <= 24 && Number2(s, 3) <= 59
    then Some(TimeOfDay(Number2(s, 0), Number2(s, 3)))
    else None
  }

  /** Minutes since the start of day 0 of the proleptic calendar; the day
      count makes a day overflow or hour 24 roll into the next day. */
  function MinuteStamp(d: Date, t: TimeOfDay): int
    requires 1 <= d.month <= 12
  {
    DayNumber(d) * 1440 + t.hour * 60 + t.minute
  }

  /** `datetime(date || ' ' || time)` as a minute stamp, `None` for NULL:
      a datetime is read exactly when the date is a ten-character SQLite
      date and the time a five-character SQLite time. */
  function SqlDateTime(date: string, time: string): (r: Option<int>)
    ensures r.Some? <==> |date| == 10 && |time| == 5 && SqlDate(date).Some? && SqlTime(time).Some?
    ensures r.Some? ==> r.value == MinuteStamp(SqlDate(date).value, SqlTime(time).value)
  {
    var s := date + " " + time;
    if |s| != 16 || s[10] != ' ' then None
    else
      JoinedDateTimeSplits(date, time);
      match (SqlDate(s[..10]), SqlTime(s[11..]))
      case (Some(d), Some(t)) => Some(MinuteStamp(d, t))
      case _ => None
  }

  /** Only a ten-character date puts the separator where SQLite reads it
      and leaves both halves readable. */
  lemma JoinedDateTimeSplits(date: string, time: string)
    requires |date + " " + time| == 16
    ensures |date| == 10 ==> (date + " " + time)[..10] == date && (date + " " + time)[11..] == time
    ensures |date| != 10 ==>
      SqlDate((date + " " + time)[..10]).None? || SqlTime((date + " " + time)[11..]).None?
  {
    var s := date + " " + time;
    if |date| < 10 {
      assert s[..10][|date|] == ' ';
    } else if |date| > 10 {
      assert s[11..][|date| - 11] == ' ';
    } else {
      assert s[..10] == date;
      assert s[11..] == time;
    }
  }

  // ---------------------------------------------------------------------
  // Round trips and agreement between the two grammars

  /** Every valid date's canonical text reads back as that date. */
  lemma ParseFormatDate(d: Date)
    requires ValidDate(d)
    ensures ParseDate(FormatDate(d)) == Some(d)
  {
    var s := FormatDate(d);
    assert s[..4] == Pad4(d.year);
    assert Number4(s, 0) == d.year;
    assert Number2(s, 5) == d.month;
    assert Number2(s, 8) == d.day;
  }

  /** Every valid time's canonical text reads back as that time. */
  lemma ParseFormatTime(t: TimeOfDay)
    requires ValidTime(t)
    ensures ParseTime(FormatTime(t)) == Some(t)
  {
    var s := FormatTime(t);
    assert Number2(s, 0) == t.hour;
    assert Number2(s, 3) == t.minute;
  }

  /** Where SQLite reads a real calendar date, Python reads the same one. */
  lemma SqlDateIsParsed(s: string)
    requires SqlDate(s).Some? && ValidDate(SqlDate(s).value)
    ensures ParseDate(s) == SqlDate(s)
  {
  }

  /** Where Python reads a ten-character date that is not space-padded,
      SQLite reads the same date: both two-character fields are digits. */
  lemma ParsedDateIsSql(s: string)
    requires ParseDate(s).Some? && |s| == 10 && s[8] != ' '
    ensures SqlDate(s) == ParseDate(s)
  {
    var m := MonthField(s, 5).value;
    var d := DayField(s, m.next + 1).value;
    assert m.next == 7 && d.next == 10;
  }

  /** The canonical text of a valid date is read by SQLite as that date. */
  lemma SqlFormatDate(d: Date)
    requires ValidDate(d)
    ensures SqlDate(FormatDate(d)) == Some(d)
  {
    ParseFormatDate(d);
    ParsedDateIsSql(FormatDate(d));
  }

  /** SQLite and Python agree on five-character times below hour 24. */
  lemma TimeGrammarsAgree(s: string)
    requires |s| == 5
    ensures ParseTime(s).Some? ==> SqlTime(s) == ParseTime(s)
    ensures SqlTime(s).Some? && SqlTime(s).value.hour < 24 ==> ParseTime(s) == SqlTime(s)
  {
    if ParseTime(s).Some? {
      var h := HourField(s, 0).value;
      var m := MinuteField(s, h.next + 1).value;
      assert h.next == 2 && m.next == 5;
    }
  }

  /** `strptime` accepts an unpadded hour, SQLite does not. */
  lemma UnpaddedTimeOnlyForPython()
    ensures ParseTime("9:30") == Some(TimeOfDay(9, 30))
    ensures SqlTime("9:30") == None
  {
  }

  /** `strptime` accepts unpadded month and day, SQLite does not. */
  lemma UnpaddedDateOnlyForPython()
    ensures ParseDate("2024-1-5") == Some(Date(2024, 1, 5))
    ensures SqlDate("2024-1-5") == None
  {
  }
}

=== FILE: events.dfy ===
/** One row of the `schedule` table and the encoding of its
    `recurrence_days` column. Every column is kept as the text (or NULL)
    the table holds; parsing happens where the application parses. */
module Events {
  import opened Options
  import opened Text
  import opened Calendar

  /** What the `reminder_time` column holds: a number, or the text typed in
      the reminder field. Only whether it is NULL matters anywhere. */
  datatype Reminder = Minutes(count: int) | Entered(text: string)

  /** A row without its id; NULL columns are `None`. */
  datatype Event = Event(
    date: string,
    course: string,
    time: string,
    location: string,
    notes: Option<string>,
    category: Option<string>,
    recurrenceType: Option<string>,
    recurrenceEnd: Option<string>,
    recurrenceDays: Option<string>,
    reminder: Option<Reminder>)

  /** A row as `SELECT *` returns it. */
  datatype Row = Row(id: int, ev: Event)

  /** The table, keyed by its integer primary key. */
  type Store = map<int, Event>

  /** The recurrence choices the form offers. */
  const NoRecurrence: string := "None"
  const Daily: string := "Daily"
  const Weekly: string := "Weekly"
  const WeeklySpecificDays: string := "Weekly (Specific Days)"
  const Monthly: string := "Monthly"
  const Yearly: string := "Yearly"

  /** The day list read back from `recurrence_days`: NULL or "" give no
      days, anything else is split on commas and each piece stripped. */
  function ParseDays(field: Option<string>): (days: seq<string>)
    ensures days == [] <==> field.None? || field.value == ""
    ensures forall k :: 0 <= k < |days| ==> ',' !in days[k]
  {
    if field.None? || field.value == "" then []
    else
      var pieces := Split(field.value, ',');
      StripEachKeepsOut(pieces, ',');
      seq(|pieces|, k requires 0 <= k < |pieces| => Strip(pieces[k]))
  }

  /** The names of the ticked weekdays from `from` to Sunday, in week order.
      What the list holds is stated by `TickedNamesSpec`, its order by
      `TickedNamesInWeekOrder`. */
  function TickedNames(ticked: set<WeekdayIndex>, from: nat): seq<string>
    requires from <= 7
    decreases 7 - from
  {
    if from == 7 then []
    else
      var rest := TickedNames(ticked, from + 1);
      if from in ticked then [WeekdayNames[from]] + rest else rest
  }

  /** The list holds weekday names only, names exactly the ticked days from
      `from` on, and is empty exactly when none of them is ticked. */
  lemma {:induction false} TickedNamesSpec(ticked: set<WeekdayIndex>, from: nat)
    requires from <= 7
    ensures NamesOnly(TickedNames(ticked, from))
    ensures forall w: WeekdayIndex :: from <= w && w in ticked <==> WeekdayNames[w] in TickedNames(ticked, from)
    ensures |TickedNames(ticked, from)| == 0 <==> forall w: WeekdayIndex :: from <= w ==> w !in ticked
    decreases 7 - from
  {
    if from < 7 {
      TickedNamesSpec(ticked, from + 1);
      var rest := TickedNames(ticked, from + 1);
      if from in ticked {
        var names := [WeekdayNames[from]] + rest;
        assert TickedNames(ticked, from) == names;
        assert forall k :: 1 <= k < |names| ==> names[k] == rest[k - 1];
        forall w: WeekdayIndex
          ensures WeekdayNames[w] == WeekdayNames[from] ==> w == from
        {
          DayIndexOfName(w);
          DayIndexOfName(from);
        }
      }
    }
  }

  /** The position of a weekday name in the week, Monday = 0. */
  function DayIndex(name: string): (w: WeekdayIndex)
    requires name in WeekdayNames
    ensures WeekdayNames[w] == name
  {
    // The names differ in their first two letters.
    if name[0] == 'M' then 0
    else if name[0] == 'W' then 2
    else if name[0] == 'F' then 4
    else if name[0] == 'T' then (if name[1] == 'u' then 1 else 3)
    else if name[1] == 'a' then 5
    else 6
  }

  lemma DayIndexOfName(w: WeekdayIndex)
    ensures DayIndex(WeekdayNames[w]) == w
  {
    if w == 0 {
    } else if w == 1 {
    } else if w == 2 {
    } else if w == 3 {
    } else if w == 4 {
    } else if w == 5 {
    } else {
    }
  }

  /** The ticked names come in week order, Monday first, from `from` on. */
  lemma {:induction false} TickedNamesInWeekOrder(ticked: set<WeekdayIndex>, from: nat)
    requires from <= 7
    ensures NamesOnly(TickedNames(ticked, from))
    ensures forall k :: 0 <= k < |TickedNames(ticked, from)| ==>
      from <= DayIndex(TickedNames(ticked, from)[k]) < 7
    ensures InWeekOrder(TickedNames(ticked, from))
    decreases 7 - from
  {
    TickedNamesFrom(ticked, from);
    if from < 7 {
      var rest := TickedNames(ticked, from + 1);
      TickedNamesInWeekOrder(ticked, from + 1);
      if from in ticked {
        TickedNamesFrom(ticked, from + 1);
        DayIndexOfName(from);
        ConsInWeekOrder(WeekdayNames[from], rest);
        assert TickedNames(ticked, from) == [WeekdayNames[from]] + rest;
      }
    }
  }

  predicate NamesOnly(names: seq<string>) {
    forall k :: 0 <= k < |names| ==> names[k] in WeekdayNames
  }

  /** Each later name is a later day of the week. */
  predicate InWeekOrder(names: seq<string>)
    requires NamesOnly(names)
  {
    forall i, j :: 0 <= i < j < |names| ==> DayIndex(names[i]) < DayIndex(names[j])
  }

  lemma ConsInWeekOrder(first: string, rest: seq<string>)
    requires first in WeekdayNames && NamesOnly(rest)
    requires forall k :: 0 <= k < |rest| ==> DayIndex(first) < DayIndex(rest[k])
    requires InWeekOrder(rest)
    ensures NamesOnly([first] + rest) && InWeekOrder([first] + rest)
  {
    var names := [first] + rest;
    assert forall k :: 1 <= k < |names| ==> names[k] == rest[k - 1];
  }

  /** Every name from `from` on has an index of at least `from`. */
  lemma TickedNamesFrom(ticked: set<WeekdayIndex>, from: nat)
    requires from <= 7
    ensures NamesOnly(TickedNames(ticked, from))
    ensures forall k :: 0 <= k < |TickedNames(ticked, from)| ==> from <= DayIndex(TickedNames(ticked, from)[k])
  {
    TickedNamesSpec(ticked, from);
    var names := TickedNames(ticked, from);
    forall k | 0 <= k < |names|
      ensures from <= DayIndex(names[k])
    {
      assert WeekdayNames[DayIndex(names[k])] in names;
    }
  }

  /** What the form writes to `recurrence_days` for a set of ticked
      weekdays: their names joined with ",", Monday first. */
  function JoinDays(ticked: set<WeekdayIndex>): string {
    Join(TickedNames(ticked, 0), ',')
  }

  /** Reading back what the form wrote gives the ticked names, in week order;
      no ticks give "", which reads back as no days. */
  lemma DaysRoundTrip(ticked: set<WeekdayIndex>)
    ensures ParseDays(Some(JoinDays(ticked))) == TickedNames(ticked, 0)
    ensures forall w: WeekdayIndex :: WeekdayNames[w] in ParseDays(Some(JoinDays(ticked))) <==> w in ticked
    ensures ticked == {} <==> JoinDays(ticked) == ""
  {
    TickedNamesSpec(ticked, 0);
    var names := TickedNames(ticked, 0);
    if names != [] {
      NamesArePlain(names);
      assert names[0] != "";
      ParseJoinedPieces(names);
    }
  }

  /** Splitting and stripping a comma-join of comma-free, already stripped,
      pieces gives them back. */
  lemma ParseJoinedPieces(pieces: seq<string>)
    requires pieces != [] && pieces[0] != ""
    requires forall k :: 0 <= k < |pieces| ==> ',' !in pieces[k] && Strip(pieces[k]) == pieces[k]
    ensures ParseDays(Some(Join(pieces, ','))) == pieces
  {
    SplitJoin(pieces, ',');
    JoinNonEmpty(pieces, ',');
    var parsed := ParseDays(Some(Join(pieces, ',')));
    assert |parsed| == |pieces|;
    forall k | 0 <= k < |pieces|
      ensures parsed[k] == pieces[k]
    {
      assert parsed[k] == Strip(pieces[k]);
    }
  }

  lemma NamesArePlain(names: seq<string>)
    requires NamesOnly(names)
    ensures forall k :: 0 <= k < |names| ==> ',' !in names[k] && Strip(names[k]) == names[k]
  {
    forall k | 0 <= k < |names|
      ensures ',' !in names[k] && Strip(names[k]) == names[k]
    {
      WeekdayNameShape(names[k]);
    }
  }

  /** Weekday names have no commas and no surrounding whitespace. */
  lemma WeekdayNameShape(name: string)
    requires name in WeekdayNames
    ensures ',' !in name
    ensures Strip(name) == name
  {
    StripFixesTrimmed(name);
  }

  lemma JoinNonEmpty(parts: seq<string>, sep: char)
    requires |parts| >= 1 && parts[0] != ""
    ensures Join(parts, sep) != ""
  {
  }
}

=== FILE: forms.dfy ===
/** The event manager window's write path: field validation, the record
    built from the form, and the add / update / delete statements, over the
    table as a map from id to row. */
module Forms {
  import opened Options
  import opened Text
  import opened Calendar
  import opened DateText
  import opened Events
  import opened Visibility

  /** The form as typed: the text of each entry and the ticked weekday boxes. */
  datatype Form = Form(
    date: string,
    course: string,
    time: string,
    location: string,
    notes: string,
    category: string,
    reminder: string,
    recurrence: string,
    recurrenceEnd: string,
    ticked: set<WeekdayIndex>)

  /** The three messages validation can show, in the order it checks. */
  datatype ValidationError = MissingRequired | BadDate | BadTime

  datatype Verdict = Accepted | Rejected(reason: ValidationError)

  /** Why a write did not reach the table. */
  datatype WriteError = NoSelection | Invalid(reason: ValidationError)

  /** Date, course, time and location are all non-blank once stripped. */
  predicate RequiredPresent(f: Form) {
    && Strip(f.date) != ""
    && Strip(f.course) != ""
    && Strip(f.time) != ""
    && Strip(f.location) != ""
  }

  /** The form check run before any write. */
  function Validate(f: Form): (v: Verdict)
    ensures v == Accepted <==>
      RequiredPresent(f) && ParseDate(Strip(f.date)).Some? && ParseTime(Strip(f.time)).Some?
    ensures v == Rejected(MissingRequired) <==> !RequiredPresent(f)
    ensures v == Rejected(BadDate) <==> RequiredPresent(f) && ParseDate(Strip(f.date)).None?
    ensures v == Rejected(BadTime) <==>
      RequiredPresent(f) && ParseDate(Strip(f.date)).Some? && ParseTime(Strip(f.time)).None?
    ensures v == Accepted ==>
      var d, t := ParseDate(Strip(f.date)), ParseTime(Strip(f.time));
      && d.Some? && ValidDate(d.value) && t.Some? && ValidTime(t.value)
      && Strip(f.course) != "" && Strip(f.location) != ""
  {
    if !RequiredPresent(f) then Rejected(MissingRequired)
    else if ParseDate(Strip(f.date)).None? then Rejected(BadDate)
    else if ParseTime(Strip(f.time)).None? then Rejected(BadTime)
    else Accepted
  }

  /** A blank reminder entry is stored as the number 0, which is not NULL. */
  function ReminderEntry(text: string): Reminder {
    if Strip(text) == "" then Minutes(0) else Entered(Strip(text))
  }

  /** The row the form writes, before the table gives it an id. */
  function BuildRecord(f: Form): (ev: Event)
    ensures ev.reminder.Some?
    ensures Strip(f.reminder) == "" ==> ev.reminder == Some(Minutes(0))
    ensures ev.recurrenceType == Some(Strip(f.recurrence))
    ensures ev.recurrenceEnd == Some(Strip(f.recurrenceEnd))
    ensures Strip(f.recurrence) == WeeklySpecificDays ==> ev.recurrenceDays == Some(JoinDays(f.ticked))
    ensures ev.recurrenceDays.Some?
    ensures ev.recurrenceDays.value != "" ==> ev.recurrenceType == Some(WeeklySpecificDays)
  {
    var recType := Strip(f.recurrence);
    Event(
      Strip(f.date), Strip(f.course), Strip(f.time), Strip(f.location),
      Some(Strip(f.notes)), Some(Strip(f.category)),
      Some(recType), Some(Strip(f.recurrenceEnd)),
      Some(if recType == WeeklySpecificDays then JoinDays(f.ticked) else ""),
      Some(ReminderEntry(f.reminder)))
  }

  /** "Add Event": validate, then insert the record under the fresh id the
      table assigns. */
  function AddEvent(store: Store, f: Form, id: int): (r: Result<Store, WriteError>)
    requires id !in store
    ensures r.Ok? <==> Validate(f) == Accepted
    ensures r.Err? ==> r.error == Invalid(Validate(f).reason)
    ensures r.Ok? ==> r.value.Keys == store.Keys + {id} && r.value[id] == BuildRecord(f)
    ensures r.Ok? ==> forall k :: k in store ==> r.value[k] == store[k]
  {
    match Validate(f)
    case Rejected(reason) => Err(Invalid(reason))
    case Accepted => Ok(store[id := BuildRecord(f)])
  }

  /** "Update Event": nothing selected is a warning; otherwise validate and
      overwrite the selected row. A selected id no longer in the table
      matches no row and leaves the table as it was. */
  function UpdateEvent(store: Store, selected: Option<int>, f: Form): (r: Result<Store, WriteError>)
    ensures selected.None? ==> r == Err(NoSelection)
    ensures selected.Some? ==> (r.Ok? <==> Validate(f) == Accepted)
    ensures selected.Some? && r.Err? ==> r.error == Invalid(Validate(f).reason)
    ensures r.Ok? ==> r.value.Keys == store.Keys
    ensures r.Ok? ==> forall k :: k in store ==>
      r.value[k] == (if Some(k) == selected then BuildRecord(f) else store[k])
  {
    match selected
    case None => Err(NoSelection)
    case Some(id) =>
      match Validate(f)
      case Rejected(reason) => Err(Invalid(reason))
      case Accepted => Ok(if id in store then store[id := BuildRecord(f)] else store)
  }

  /** "Delete Event": nothing selected is a warning; a declined
      confirmation keeps the table; otherwise the selected row goes. */
  function DeleteEvent(store: Store, selected: Option<int>, confirmed: bool): (r: Result<Store, WriteError>)
    ensures selected.None? <==> r == Err(NoSelection)
    ensures selected.Some? ==> r.Ok?
    ensures r.Ok? ==> r.value.Keys == (if confirmed then store.Keys - {selected.value} else store.Keys)
    ensures r.Ok? ==> forall k :: k in r.value ==> r.value[k] == store[k]
  {
    match selected
    case None => Err(NoSelection)
    case Some(id) => Ok(if confirmed then store - {id} else store)
  }

  /** The manager's "Events on this date" list: rows whose stored date text
      equals the stripped date entry, character for character. */
  function ListByExactDate(store: Store, dateEntry: string): (ids: set<int>)
    ensures ids <= store.Keys
    ensures forall id :: id in store ==> (id in ids <==> store[id].date == Strip(dateEntry))
  {
    set id | id in store && store[id].date == Strip(dateEntry)
  }

  // ---------------------------------------------------------------------
  // Properties of the write path

  /** An accepted form is listed under its own date right after it is
      added, as one more row holding exactly the stripped entries. */
  lemma AddThenListByDate(store: Store, f: Form, id: int)
    requires id !in store
    requires Validate(f) == Accepted
    ensures AddEvent(store, f, id).Ok?
    ensures var after := AddEvent(store, f, id).value;
      && ListByExactDate(after, f.date) == ListByExactDate(store, f.date) + {id}
      && after[id].date == Strip(f.date) && after[id].course == Strip(f.course)
      && after[id].time == Strip(f.time) && after[id].location == Strip(f.location)
      && after[id].notes == Some(Strip(f.notes)) && after[id].category == Some(Strip(f.category))
  {
  }

  /** Spaces around the entry make no difference to the list. */
  lemma ListIgnoresSurroundingSpaces(store: Store, dateEntry: string)
    ensures ListByExactDate(store, dateEntry) == ListByExactDate(store, Strip(dateEntry))
  {
    StripIdempotent(dateEntry);
  }

  /** The list compares text, not dates: a row stored as "2024-01-05" is not
      listed for the entry "2024-1-5", which names the same day. */
  lemma ListComparesText(store: Store, id: int)
    requires id in store && store[id].date == "2024-01-05"
    ensures ParseDate("2024-1-5") == ParseDate("2024-01-05") == Some(Date(2024, 1, 5))
    ensures id !in ListByExactDate(store, "2024-1-5")
  {
    StripFixesTrimmed("2024-1-5");
  }

  /** Deleting a freshly added row, confirmed, gives the table back as it
      was before the add. */
  lemma DeleteUndoesAdd(store: Store, f: Form, id: int)
    requires id !in store
    requires Validate(f) == Accepted
    ensures AddEvent(store, f, id).Ok?
    ensures DeleteEvent(AddEvent(store, f, id).value, Some(id), true) == Ok(store)
  {
    var after := AddEvent(store, f, id).value;
    assert after - {id} == store;
  }

  /** A rejected form writes nothing, whichever button was pressed. */
  lemma RejectedFormWritesNothing(store: Store, f: Form, id: int, selected: Option<int>)
    requires id !in store
    requires Validate(f).Rejected?
    ensures AddEvent(store, f, id).Err?
    ensures UpdateEvent(store, selected, f).Err?
  {
  }

  /** The row an accepted form writes has a readable date equal to the
      entry's and a readable time, so it never stops the day listing. */
  lemma AcceptedRecordIsReadable(f: Form)
    requires Validate(f) == Accepted
    ensures HasAnchor(BuildRecord(f))
    ensures Anchor(BuildRecord(f)) == ParseDate(Strip(f.date)).value
    ensures ParseTime(BuildRecord(f).time).Some?
  {
  }

  /** "None" from the recurrence box makes a one-off event. */
  lemma NoneChoiceIsOneOff(f: Form)
    requires Strip(f.recurrence) == NoRecurrence
    ensures IsNonRecurring(BuildRecord(f).recurrenceType)
  {
  }

  /** A "Weekly (Specific Days)" record matches exactly the ticked weekdays. */
  lemma SpecificDaysMatchTicks(f: Form, target: Date)
    requires Validate(f) == Accepted && ValidDate(target)
    requires Strip(f.recurrence) == WeeklySpecificDays
    ensures var ev := BuildRecord(f);
      (TypeMatches(WeeklySpecificDays, ParseDate(ev.date).value, target, ev.recurrenceDays)
       <==> Weekday(target) in f.ticked)
  {
    DaysRoundTrip(f.ticked);
    assert BuildRecord(f).recurrenceDays == Some(JoinDays(f.ticked));
  }

  /** A "Weekly (Specific Days)" row reads back as the ticked weekday names
      in week order, Monday first. */
  lemma SpecificDaysStoredInWeekOrder(f: Form)
    requires Strip(f.recurrence) == WeeklySpecificDays
    ensures ParseDays(BuildRecord(f).recurrenceDays) == TickedNames(f.ticked, 0)
    ensures NamesOnly(ParseDays(BuildRecord(f).recurrenceDays))
    ensures InWeekOrder(ParseDays(BuildRecord(f).recurrenceDays))
  {
    DaysRoundTrip(f.ticked);
    TickedNamesInWeekOrder(f.ticked, 0);
  }

  /** Every other recurrence choice stores no weekday names. */
  lemma OtherChoicesStoreNoDays(f: Form)
    requires Strip(f.recurrence) != WeeklySpecificDays
    ensures ParseDays(BuildRecord(f).recurrenceDays) == []
  {
  }
}

=== FILE: options.dfy ===
/** Optional values (nullable columns, failed parses) and operation results
    that either succeed or report why they did not. */
module Options {
  datatype Option<+T> = None | Some(value: T)

  datatype Result<+T, +E> = Ok(value: T) | Err(error: E)
}

=== FILE: reminders.dfy ===
/** The background reminder scan: once a minute it selects the armed rows
    whose `datetime(date || ' ' || time)` lies in the coming half hour,
    announces each and disarms it by setting its reminder to NULL. */
module Reminders {
  import opened Options
  import opened Calendar
  import opened DateText
  import opened Events
  import opened Text
  import opened Forms

  /** The wall-clock minute of a scan, as `now` formats it. */
  datatype Moment = Moment(date: Date, time: TimeOfDay)

  predicate ValidMoment(m: Moment) {
    ValidDate(m.date) && ValidTime(m.time)
  }

  function Stamp(m: Moment): int
    requires ValidMoment(m)
  {
    MinuteStamp(m.date, m.time)
  }

  /** The scan window is `datetime(now)` to `datetime(now, '+30 minutes')`. */
  const Lookahead: int := 30

  /** `reminder_time IS NOT NULL`; the value itself is never consulted. */
  predicate Armed(ev: Event) {
    ev.reminder.Some?
  }

  /** The row's start reads as a datetime within the window beginning at
      minute `from`, both ends included. */
  predicate StartsWithin(ev: Event, from: int) {
    match SqlDateTime(ev.date, ev.time)
    case None => false
    case Some(t) => from <= t <= from + Lookahead
  }

  predicate Due(ev: Event, from: int) {
    Armed(ev) && StartsWithin(ev, from)
  }

  /** The rows the scan's SELECT returns. */
  function DueIds(store: Store, from: int): set<int> {
    set id | id in store && Due(store[id], from)
  }

  /** The table after `reminder_time = NULL` for every id in `ids`. */
  function Disarm(store: Store, ids: set<int>): Store {
    map id | id in store :: if id in ids then store[id].(reminder := None) else store[id]
  }

  function FiredIds(fired: seq<Row>): set<int> {
    set k | 0 <= k < |fired| :: fired[k].id
  }

  /** One pass of the scan loop at minute `now`: every due row is announced
      once, with the contents it had when selected, and disarmed; nothing
      else in the table changes. The order of the SELECT is unspecified. */
  method ScanStep(store: Store, now: Moment) returns (fired: seq<Row>, after: Store)
    requires ValidMoment(now)
    ensures FiredIds(fired) == DueIds(store, Stamp(now))
    ensures forall i, j :: 0 <= i < j < |fired| ==> fired[i].id != fired[j].id
    ensures forall i :: 0 <= i < |fired| ==> fired[i].id in store && fired[i].ev == store[fired[i].id]
    ensures after.Keys == store.Keys
    ensures forall id :: id in store ==>
      && after[id].(reminder := store[id].reminder) == store[id]
      && (after[id].reminder == if Due(store[id], Stamp(now)) then None else store[id].reminder)
  {
    var due := DueIds(store, Stamp(now));
    fired, after := Announce(store, due);
    DisarmChangesOnlyReminders(store, due);
  }

  /** The loop over the selected rows: announce each, then disarm it. */
  method Announce(store: Store, due: set<int>) returns (fired: seq<Row>, after: Store)
    requires due <= store.Keys
    ensures FiredIds(fired) == due
    ensures forall i, j :: 0 <= i < j < |fired| ==> fired[i].id != fired[j].id
    ensures forall i :: 0 <= i < |fired| ==> fired[i].id in store && fired[i].ev == store[fired[i].id]
    ensures after == Disarm(store, due)
  {
    var pending := due;
    fired := [];
    after := store;
    while pending != {}
      invariant pending <= due
      invariant FiredIds(fired) == due - pending
      invariant forall i, j :: 0 <= i < j < |fired| ==> fired[i].id != fired[j].id
      invariant forall i :: 0 <= i < |fired| ==> fired[i].id in store && fired[i].ev == store[fired[i].id]
      invariant after == Disarm(store, due - pending)
      decreases pending
    {
      HasMember(pending);
      var id :| id in pending;
      FiredIdsAppend(fired, Row(id, store[id]));
      DisarmOneMore(store, due - pending, id);
      fired := fired + [Row(id, store[id])];
      after := after[id := store[id].(reminder := None)];
      assert due - (pending - {id}) == (due - pending) + {id};
      pending := pending - {id};
    }
  }

  lemma HasMember(s: set<int>)
    requires s != {}
    ensures exists x :: x in s
  {
    if forall x :: x !in s {
      NoMemberIsEmpty(s);
      assert false;
    }
  }

  lemma NoMemberIsEmpty(s: set<int>)
    requires forall x :: x !in s
    ensures s == {}
  {
    assert forall x :: x in s <==> x in {};
  }

  lemma FiredIdsAppend(fired: seq<Row>, row: Row)
    ensures FiredIds(fired + [row]) == FiredIds(fired) + {row.id}
  {
    var longer := fired + [row];
    assert longer[|fired|] == row;
    assert forall k :: 0 <= k < |fired| ==> longer[k] == fired[k];
  }

  lemma DisarmOneMore(store: Store, ids: set<int>, id: int)
    requires id in store
    ensures Disarm(store, ids + {id}) == Disarm(store, ids)[id := store[id].(reminder := None)]
  {
  }

  /** Disarming clears the reminders of exactly the given rows and touches
      no other column and no other row. */
  lemma DisarmChangesOnlyReminders(store: Store, ids: set<int>)
    ensures Disarm(store, ids).Keys == store.Keys
    ensures forall id :: id in store ==>
      && Disarm(store, ids)[id].(reminder := store[id].reminder) == store[id]
      && (Disarm(store, ids)[id].reminder == if id in ids then None else store[id].reminder)
  {
  }

  /** The scan run once a minute for `count` minutes from minute `from`:
      the table left behind and, per minute, the ids announced. */
  function Scans(store: Store, from: int, count: nat): (r: (Store, seq<set<int>>))
    ensures |r.1| == count
    ensures r.0.Keys == store.Keys
    ensures forall k :: 0 <= k < count ==> r.1[k] <= store.Keys
    decreases count
  {
    if count == 0 then (store, [])
    else
      var rest := Scans(Disarm(store, DueIds(store, from)), from + 1, count - 1);
      (rest.0, [DueIds(store, from)] + rest.1)
  }

  /** Every id announced somewhere in a run. */
  function Union(announced: seq<set<int>>): set<int> {
    if announced == [] then {} else announced[0] + Union(announced[1..])
  }

  lemma DisarmTwice(store: Store, first: set<int>, second: set<int>)
    ensures Disarm(Disarm(store, first), second) == Disarm(store, first + second)
  {
  }

  // ---------------------------------------------------------------------
  // Properties of the scan

  /** A scan disarms everything it fires, so the same minute scanned again
      fires nothing. */
  lemma SecondScanFiresNothing(store: Store, from: int)
    ensures DueIds(Disarm(store, DueIds(store, from)), from) == {}
  {
    FiresAtMostOnce(store, from, from);
    var after := Disarm(store, DueIds(store, from));
    assert forall id :: id in after && id !in DueIds(store, from) ==> after[id] == store[id];
  }

  /** No later scan, at any minute, fires a row an earlier scan fired. */
  lemma FiresAtMostOnce(store: Store, from: int, later: int)
    ensures DueIds(store, from) !! DueIds(Disarm(store, DueIds(store, from)), later)
  {
    var after := Disarm(store, DueIds(store, from));
    forall id | id in DueIds(store, from)
      ensures id !in DueIds(after, later)
    {
      assert !Armed(after[id]);
    }
  }

  /** A run leaves the table as one disarm of everything it announced, and
      it announces only rows that were armed when it began. */
  lemma {:induction false} ScansDisarmAnnounced(store: Store, from: int, count: nat)
    ensures var r := Scans(store, from, count);
      && r.0 == Disarm(store, Union(r.1))
      && forall id :: id in Union(r.1) ==> id in store && Armed(store[id])
    decreases count
  {
    if count > 0 {
      var due := DueIds(store, from);
      var next := Disarm(store, due);
      var rest := Scans(next, from + 1, count - 1);
      ScansDisarmAnnounced(next, from + 1, count - 1);
      assert Scans(store, from, count).1 == [due] + rest.1;
      assert ([due] + rest.1)[1..] == rest.1;
      DisarmTwice(store, due, Union(rest.1));
    }
  }

  /** No row is announced by two scans of one run. */
  lemma {:induction false} ScansAnnounceOnce(store: Store, from: int, count: nat)
    ensures forall i, j :: 0 <= i < j < count ==>
      Scans(store, from, count).1[i] !! Scans(store, from, count).1[j]
    decreases count
  {
    if count > 0 {
      var due := DueIds(store, from);
      var next := Disarm(store, due);
      var rest := Scans(next, from + 1, count - 1);
      ScansAnnounceOnce(next, from + 1, count - 1);
      assert Scans(store, from, count).1 == [due] + rest.1;
      forall id | id in due
        ensures forall k :: 0 <= k < count - 1 ==> id !in rest.1[k]
      {
        DisarmedStaysSilent(next, from + 1, count - 1, id);
      }
      var all := Scans(store, from, count).1;
      forall i, j | 0 <= i < j < count
        ensures all[i] !! all[j]
      {
        assert all[j] == rest.1[j - 1];
        if i > 0 {
          assert all[i] == rest.1[i - 1];
          assert rest.1[i - 1] !! rest.1[j - 1];
        } else {
          assert all[i] == due;
          assert forall id :: id in due ==> id !in rest.1[j - 1];
        }
      }
    }
  }

  /** Disarmed rows stay silent for the rest of a run. */
  lemma {:induction false} DisarmedStaysSilent(store: Store, from: int, count: nat, id: int)
    requires id in store ==> !Armed(store[id])
    ensures forall k :: 0 <= k < count ==> id !in Scans(store, from, count).1[k]
    decreases count
  {
    if count > 0 {
      var next := Disarm(store, DueIds(store, from));
      DisarmedStaysSilent(next, from + 1, count - 1, id);
      var r := Scans(store, from, count);
      assert r.1 == [DueIds(store, from)] + Scans(next, from + 1, count - 1).1;
    }
  }

  /** An armed row whose start lies at minute `s` is announced by exactly
      one scan of a run that covers any minute from `s - 30` to `s`: the
      first scan at or after `s - 30`, however many minutes ahead its
      reminder asked for. */
  lemma {:induction false} ExactlyOnceOverRun(store: Store, from: int, count: nat, id: int, s: int)
    requires id in store && Armed(store[id])
    requires SqlDateTime(store[id].date, store[id].time) == Some(s)
    requires from <= s < from + count + Lookahead
    ensures forall k :: 0 <= k < count ==>
      (id in Scans(store, from, count).1[k] <==> k == (if s - Lookahead <= from then 0 else s - Lookahead - from))
    decreases count
  {
    if count > 0 {
      var due := DueIds(store, from);
      var next := Disarm(store, due);
      assert Scans(store, from, count).1 == [due] + Scans(next, from + 1, count - 1).1;
      if s - Lookahead <= from {
        assert id in due;
        DisarmedStaysSilent(next, from + 1, count - 1, id);
      } else {
        assert id !in due;
        assert next[id] == store[id];
        ExactlyOnceOverRun(next, from + 1, count - 1, id, s);
      }
    }
  }

  /** A row that started before the run began is never announced. */
  lemma {:induction false} PastStartNeverFires(store: Store, from: int, count: nat, id: int, s: int)
    requires id in store
    requires SqlDateTime(store[id].date, store[id].time) == Some(s)
    requires s < from
    ensures forall k :: 0 <= k < count ==> id !in Scans(store, from, count).1[k]
    decreases count
  {
    if count > 0 {
      var due := DueIds(store, from);
      var next := Disarm(store, due);
      assert id !in due;
      assert next[id].date == store[id].date && next[id].time == store[id].time;
      PastStartNeverFires(next, from + 1, count - 1, id, s);
      assert Scans(store, from, count).1 == [due] + Scans(next, from + 1, count - 1).1;
    }
  }

  /** `datetime(now)` reads the scan's own formatted minute back. */
  lemma NowReadsBack(now: Moment)
    requires ValidMoment(now)
    ensures SqlDateTime(FormatDate(now.date), FormatTime(now.time)) == Some(Stamp(now))
  {
    SqlFormatDate(now.date);
    ParseFormatTime(now.time);
    TimeGrammarsAgree(FormatTime(now.time));
    var s := FormatDate(now.date) + " " + FormatTime(now.time);
    assert s[..10] == FormatDate(now.date);
    assert s[11..] == FormatTime(now.time);
  }

  /** The window runs across midnight: at 23:50, an event at 00:10 the next
      day is already due. */
  lemma WindowCrossesMidnight(d: Date, ev: Event)
    requires ValidDate(d) && (d.year < 9999 || d.month < 12 || d.day < 31)
    requires ev.date == FormatDate(NextDay(d)) && ev.time == "00:10" && Armed(ev)
    ensures Due(ev, Stamp(Moment(d, TimeOfDay(23, 50))))
  {
    NowReadsBack(Moment(NextDay(d), TimeOfDay(0, 10)));
    assert FormatTime(TimeOfDay(0, 10)) == "00:10";
    NextDayNumber(d);
  }

  /** A form-written row with a ten-character date and a five-character
      time starts, for the scan, at the minute the form validated. */
  lemma FormRowStartsAsValidated(f: Form)
    requires Validate(f) == Accepted
    requires |Strip(f.date)| == 10 && Strip(f.date)[8] != ' ' && |Strip(f.time)| == 5
    ensures SqlDateTime(BuildRecord(f).date, BuildRecord(f).time)
      == Some(MinuteStamp(ParseDate(Strip(f.date)).value, ParseTime(Strip(f.time)).value))
  {
    var date := Strip(f.date);
    var time := Strip(f.time);
    ParsedDateIsSql(date);
    TimeGrammarsAgree(time);
    var s := date + " " + time;
    assert s[..10] == date;
    assert s[11..] == time;
  }

  /** The form accepts times such as "9:30", but SQLite reads no datetime
      from them, so such a row is never reminded although it is armed. */
  lemma ShortTimeNeverReminded(f: Form, from: int)
    requires Validate(f) == Accepted && |Strip(f.time)| < 5
    ensures Armed(BuildRecord(f))
    ensures !Due(BuildRecord(f), from)
  {
  }

  /** Nor is a row whose date is shorter than ten characters or has an
      unpadded day, such as "2024-03-5" or "2024-3-5": SQLite reads no
      datetime from its start. */
  lemma ShortDateNeverReminded(f: Form, from: int)
    requires Validate(f) == Accepted
    requires |Strip(f.date)| < 10 || Strip(f.date)[8] == ' '
    ensures Armed(BuildRecord(f))
    ensures !Due(BuildRecord(f), from)
  {
  }
}

=== FILE: text.dfy ===
/** The string operations the application applies to form fields and stored
    columns: Python's `str.strip()`, `str.split(sep)` and `sep.join(parts)`. */
module Text {

  /** Python's `str.isspace()` for one character: the ASCII whitespace and
      separator controls plus the Unicode space separators. */
  predicate IsSpace(c: char) {
    || c == ' '
    || ('\t' <= c <= '\r')
    || ('\U{1c}' <= c <= '\U{1f}')
    || c == '\U{85}' || c == '\U{a0}' || c == '\U{1680}'
    || ('\U{2000}' <= c <= '\U{200a}')
    || c == '\U{2028}' || c == '\U{2029}' || c == '\U{202f}'
    || c == '\U{205f}' || c == '\U{3000}'
  }

  predicate AllSpace(s: string) {
    forall k :: 0 <= k < |s| ==> IsSpace(s[k])
  }

  /** Removes leading whitespace. */
  function TrimLeft(s: string): string {
    if |s| > 0 && IsSpace(s[0]) then TrimLeft(s[1..]) else s
  }

  /** Removes trailing whitespace. */
  function TrimRight(s: string): string {
    if |s| > 0 && IsSpace(s[|s| - 1]) then TrimRight(s[..|s| - 1]) else s
  }

  /** Python's `str.strip()` with no argument. Its meaning is stated once,
      by `StripSpec`, rather than on every use. */
  function Strip(s: string): string {
    TrimRight(TrimLeft(s))
  }

  /** `r` is what remains of `s` once the whitespace at both ends is gone. */
  predicate IsStripOf(s: string, r: string) {
    && (r == [] || (!IsSpace(r[0]) && !IsSpace(r[|r| - 1])))
    && exists i :: 0 <= i <= |s| - |r| && s[i..i + |r|] == r
                   && AllSpace(s[..i]) && AllSpace(s[i + |r|..])
  }

  lemma {:induction false} TrimLeftSpec(s: string)
    ensures |TrimLeft(s)| <= |s| && TrimLeft(s) == s[|s| - |TrimLeft(s)|..]
    ensures AllSpace(s[..|s| - |TrimLeft(s)|])
    ensures TrimLeft(s) == [] || !IsSpace(TrimLeft(s)[0])
  {
    if |s| > 0 && IsSpace(s[0]) {
      TrimLeftSpec(s[1..]);
    }
  }

  lemma {:induction false} TrimRightSpec(s: string)
    ensures |TrimRight(s)| <= |s| && TrimRight(s) == s[..|TrimRight(s)|]
    ensures AllSpace(s[|TrimRight(s)|..])
    ensures TrimRight(s) == [] || !IsSpace(TrimRight(s)[|TrimRight(s)| - 1])
  {
    if |s| > 0 && IsSpace(s[|s| - 1]) {
      var t := s[..|s| - 1];
      TrimRightSpec(t);
      assert s[|TrimRight(s)|..] == t[|TrimRight(t)|..] + [s[|s| - 1]];
    }
  }

  /** Stripping removes exactly the whitespace at both ends: the result is
      a slice of `s` with only whitespace around it and none at its own
      ends, and it is empty exactly when `s` is all whitespace. */
  lemma StripSpec(s: string)
    ensures IsStripOf(s, Strip(s))
    ensures Strip(s) == [] <==> AllSpace(s)
  {
    var left := TrimLeft(s);
    TrimLeftSpec(s);
    TrimRightSpec(left);
    var r := TrimRight(left);
    var i := |s| - |left|;
    StripWitness(s, left, r, i);
    if r == [] {
      assert s == s[..i] + left;
    } else {
      assert s[i] == r[0];
    }
  }

  /** The slice of `s` at `i` that stripping keeps, with whitespace around it. */
  lemma StripWitness(s: string, left: string, r: string, i: int)
    requires 0 <= i <= |s| && left == s[i..] && AllSpace(s[..i])
    requires |r| <= |left| && r == left[..|r|] && AllSpace(left[|r|..])
    requires r == [] || (!IsSpace(r[0]) && !IsSpace(r[|r| - 1]))
    ensures IsStripOf(s, r)
  {
    assert s[i..i + |r|] == r;
    assert s[i + |r|..] == left[|r|..];
  }

  /** A string without whitespace at its ends is its own strip; in
      particular stripping twice is stripping once. */
  lemma StripFixesTrimmed(s: string)
    requires s == [] || (!IsSpace(s[0]) && !IsSpace(s[|s| - 1]))
    ensures Strip(s) == s
  {
  }

  lemma StripIdempotent(s: string)
    ensures Strip(Strip(s)) == Strip(s)
  {
    StripSpec(s);
    StripFixesTrimmed(Strip(s));
  }

  /** Stripping only removes characters: a character absent from `s` is
      absent from its strip. */
  lemma StripKeepsOut(s: string, c: char)
    requires c !in s
    ensures c !in Strip(s)
  {
    var left := TrimLeft(s);
    TrimLeftSpec(s);
    TrimRightSpec(left);
    assert forall k :: 0 <= k < |Strip(s)| ==> Strip(s)[k] == s[|s| - |left| + k];
  }

  lemma StripEachKeepsOut(pieces: seq<string>, c: char)
    requires forall k :: 0 <= k < |pieces| ==> c !in pieces[k]
    ensures forall k :: 0 <= k < |pieces| ==> c !in Strip(pieces[k])
  {
    forall k | 0 <= k < |pieces| {
      StripKeepsOut(pieces[k], c);
    }
  }

  /** The position of the first `c` in `s`. */
  function IndexOf(s: string, c: char): (i: nat)
    requires c in s
    ensures i < |s| && s[i] == c && c !in s[..i]
  {
    if s[0] == c then 0 else 1 + IndexOf(s[1..], c)
  }

  /** Python's `sep.join(parts)` for a one-character separator. */
  function Join(parts: seq<string>, sep: char): string {
    if |parts| == 0 then ""
    else if |parts| == 1 then parts[0]
    else parts[0] + [sep] + Join(parts[1..], sep)
  }

  /** Python's `s.split(sep)` for a one-character separator: never empty, no
      piece holds the separator, and joining the pieces gives `s` back. */
  function Split(s: string, sep: char): (parts: seq<string>)
    ensures |parts| >= 1
    ensures forall k :: 0 <= k < |parts| ==> sep !in parts[k]
    ensures Join(parts, sep) == s
    decreases |s|
  {
    if sep in s then
      var i := IndexOf(s, sep);
      var rest := Split(s[i + 1..], sep);
      assert ([s[..i]] + rest)[1..] == rest;
      assert s[..i] + [sep] + s[i + 1..] == s;
      [s[..i]] + rest
    else
      [s]
  }

  /** Splitting a join of separator-free pieces gives the pieces back. The
      join of no pieces is "" and splits to [""], hence `|parts| >= 1`. */
  lemma {:induction false} SplitJoin(parts: seq<string>, sep: char)
    requires |parts| >= 1
    requires forall k :: 0 <= k < |parts| ==> sep !in parts[k]
    ensures Split(Join(parts, sep), sep) == parts
  {
    if |parts| > 1 {
      var rest := Join(parts[1..], sep);
      SplitAtFirst(parts[0], sep, rest);
      SplitJoin(parts[1..], sep);
      assert parts == [parts[0]] + parts[1..];
    }
  }

  /** Split cuts at the first separator. */
  lemma SplitAtFirst(head: string, sep: char, rest: string)
    requires sep !in head
    ensures Split(head + [sep] + rest, sep) == [head] + Split(rest, sep)
  {
    var s := head + [sep] + rest;
    assert s[|head|] == sep;
    var i := IndexOf(s, sep);
    assert s[..|head|] == head;
    assert i == |head|;
    assert s[..i] == head;
    assert s[i + 1..] == rest;
  }
}

=== FILE: visibility.dfy ===
/** The day-list rule of the main window: for the date selected in the
    calendar, which stored events appear. */
module Visibility {
  import opened Options
  import opened Text
  import opened Calendar
  import opened DateText
  import opened Events

  /** No recurrence: NULL, blank after stripping, or exactly "None". */
  predicate IsNonRecurring(recType: Option<string>) {
    recType.None? || Strip(recType.value) == "" || recType.value == NoRecurrence
  }

  /** The stored date reads as a calendar date. */
  predicate HasAnchor(ev: Event) {
    ParseDate(ev.date).Some?
  }

  function Anchor(ev: Event): Date
    requires HasAnchor(ev)
  {
    ParseDate(ev.date).value
  }

  /** The end-date test: an absent, empty or unreadable end does not bound
      the recurrence; a readable one bounds it inclusively. */
  predicate EndPermits(target: Date, recEnd: Option<string>) {
    match recEnd
    case None => true
    case Some(text) =>
      text == "" ||
      match ParseDate(text)
      case None => true
      case Some(last) => OnOrBefore(target, last)
  }

  /** The per-type test; an unrecognised type never matches. */
  predicate TypeMatches(recType: string, anchor: Date, target: Date, days: Option<string>)
    requires ValidDate(anchor) && ValidDate(target)
  {
    if recType == Daily then true
    else if recType == Weekly then Weekday(anchor) == Weekday(target)
    else if recType == WeeklySpecificDays then WeekdayName(target) in ParseDays(days)
    else if recType == Monthly then anchor.day == target.day
    else if recType == Yearly then anchor.month == target.month && anchor.day == target.day
    else false
  }

  /** The rule the listing actually applies. A non-recurring event shows on
      its own date only. A recurring one shows from its date on, when the
      end test passes OR its type test passes: the type tests can only add
      days, never remove the ones the end test let through. */
  predicate Visible(target: Date, ev: Event)
    requires ValidDate(target) && HasAnchor(ev)
  {
    var anchor := Anchor(ev);
    if IsNonRecurring(ev.recurrenceType) then anchor == target
    else
      && OnOrBefore(anchor, target)
      && (EndPermits(target, ev.recurrenceEnd)
          || TypeMatches(ev.recurrenceType.value, anchor, target, ev.recurrenceDays))
  }

  /** The per-row decision of the listing, step by step as the code takes
      it: a flag starts false, the end test sets it, and the type branches
      may only set it to true. */
  method ShowEvent(target: Date, ev: Event) returns (show: bool)
    requires ValidDate(target) && HasAnchor(ev)
    ensures show <==> Visible(target, ev)
  {
    var eventDate := Anchor(ev);
    show := false;
    if IsNonRecurring(ev.recurrenceType) {
      if eventDate == target {
        show := true;
      }
    } else {
      var recType := ev.recurrenceType.value;
      if OnOrBefore(eventDate, target) {
        if ev.recurrenceEnd.Some? && ev.recurrenceEnd.value != "" {
          match ParseDate(ev.recurrenceEnd.value)
          case None =>
            show := true;
          case Some(recEnd) =>
            if Before(recEnd, target) {
              show := false;
            } else {
              show := true;
            }
        } else {
          show := true;
        }
        if recType == Daily {
          show := true;
        } else if recType == Weekly {
          if Weekday(eventDate) == Weekday(target) {
            show := true;
          }
        } else if recType == WeeklySpecificDays {
          var days := ParseDays(ev.recurrenceDays);
          if WeekdayName(target) in days {
            show := true;
          }
        } else if recType == Monthly {
          if eventDate.day == target.day {
            show := true;
          }
        } else if recType == Yearly {
          if eventDate.month == target.month && eventDate.day == target.day {
            show := true;
          }
        }
      }
    }
  }

  // ---------------------------------------------------------------------
  // The whole listing

  /** How many leading rows have a readable date: the listing stops at the
      first row whose date `strptime` rejects. */
  function ReadablePrefix(rows: seq<Row>): (k: nat)
    ensures k <= |rows|
    ensures forall j :: 0 <= j < k ==> HasAnchor(rows[j].ev)
    ensures k < |rows| ==> !HasAnchor(rows[k].ev)
  {
    if rows == [] || !HasAnchor(rows[0].ev) then 0
    else 1 + ReadablePrefix(rows[1..])
  }

  /** The ids of the visible rows, in row order. */
  function VisibleIds(target: Date, rows: seq<Row>): (ids: seq<int>)
    requires ValidDate(target)
    requires forall j :: 0 <= j < |rows| ==> HasAnchor(rows[j].ev)
    ensures |ids| <= |rows|
    ensures forall id :: id in ids <==>
      exists j :: 0 <= j < |rows| && rows[j].id == id && Visible(target, rows[j].ev)
  {
    if rows == [] then []
    else
      var last := rows[|rows| - 1];
      var front := VisibleIds(target, rows[..|rows| - 1]);
      if Visible(target, last.ev) then front + [last.id] else front
  }

  /** Rows with distinct ids give a list with no id twice: each row is
      listed at most once. */
  lemma {:induction false} VisibleIdsDistinct(target: Date, rows: seq<Row>)
    requires ValidDate(target)
    requires forall j :: 0 <= j < |rows| ==> HasAnchor(rows[j].ev)
    requires forall i, j :: 0 <= i < j < |rows| ==> rows[i].id != rows[j].id
    ensures forall i, j :: 0 <= i < j < |VisibleIds(target, rows)| ==>
      VisibleIds(target, rows)[i] != VisibleIds(target, rows)[j]
  {
    if rows != [] {
      var last := rows[|rows| - 1];
      var front := VisibleIds(target, rows[..|rows| - 1]);
      VisibleIdsDistinct(target, rows[..|rows| - 1]);
      assert last.id !in front;
      var ids := front + [last.id];
      assert forall i :: 0 <= i < |front| ==> ids[i] == front[i];
    }
  }

  /** The day list for `target` over the rows `SELECT *` returned, in that
      order. A row with an unreadable date raises out of the loop: the rows
      listed before it stay listed and `completed` is false. */
  method DayList(target: Date, rows: seq<Row>) returns (shown: seq<int>, completed: bool)
    requires ValidDate(target)
    ensures completed <==> ReadablePrefix(rows) == |rows|
    ensures shown == VisibleIds(target, rows[..ReadablePrefix(rows)])
  {
    shown := [];
    var i := 0;
    while i < |rows|
      invariant 0 <= i <= |rows|
      invariant forall j :: 0 <= j < i ==> HasAnchor(rows[j].ev)
      invariant shown == VisibleIds(target, rows[..i])
    {
      if !HasAnchor(rows[i].ev) {
        completed := false;
        return;
      }
      var show := ShowEvent(target, rows[i].ev);
      assert rows[..i + 1][..i] == rows[..i];
      if show {
        shown := shown + [rows[i].id];
      }
      i := i + 1;
    }
    assert rows[..i] == rows;
    completed := true;
  }

  /** `SELECT *` returns each stored row exactly once. */
  predicate Enumerates(rows: seq<Row>, store: Store) {
    && (forall i, j :: 0 <= i < j < |rows| ==> rows[i].id != rows[j].id)
    && (forall i :: 0 <= i < |rows| ==> rows[i].id in store && store[rows[i].id] == rows[i].ev)
    && (forall id :: id in store ==> exists i :: 0 <= i < |rows| && rows[i].id == id)
  }

  /** When every stored date is readable, the listing completes and lists
      exactly the stored events visible on `target`, whatever the row order. */
  lemma DayListOverStore(target: Date, rows: seq<Row>, store: Store)
    requires ValidDate(target)
    requires Enumerates(rows, store)
    requires forall id :: id in store ==> HasAnchor(store[id])
    ensures ReadablePrefix(rows) == |rows|
    ensures forall id :: id in VisibleIds(target, rows[..ReadablePrefix(rows)]) <==>
      id in store && Visible(target, store[id])
  {
    WholeListingReadable(rows, store);
    ListsExactlyVisible(target, rows, store);
  }

  lemma WholeListingReadable(rows: seq<Row>, store: Store)
    requires Enumerates(rows, store)
    requires forall id :: id in store ==> HasAnchor(store[id])
    ensures forall j :: 0 <= j < |rows| ==> HasAnchor(rows[j].ev)
    ensures ReadablePrefix(rows) == |rows|
    ensures rows[..ReadablePrefix(rows)] == rows
  {
    assert forall j :: 0 <= j < |rows| ==> HasAnchor(rows[j].ev);
    assert rows[..ReadablePrefix(rows)] == rows;
  }

  lemma ListsExactlyVisible(target: Date, rows: seq<Row>, store: Store)
    requires ValidDate(target)
    requires Enumerates(rows, store)
    requires forall j :: 0 <= j < |rows| ==> HasAnchor(rows[j].ev)
    requires forall id :: id in store ==> HasAnchor(store[id])
    ensures forall id :: id in VisibleIds(target, rows) <==> id in store && Visible(target, store[id])
  {
    forall id
      ensures id in VisibleIds(target, rows) <==> id in store && Visible(target, store[id])
    {
      ListedIffStoredAndVisible(target, rows, store, id);
    }
  }

  lemma ListedIffStoredAndVisible(target: Date, rows: seq<Row>, store: Store, id: int)
    requires ValidDate(target)
    requires Enumerates(rows, store)
    requires forall j :: 0 <= j < |rows| ==> HasAnchor(rows[j].ev)
    requires forall id :: id in store ==> HasAnchor(store[id])
    ensures id in VisibleIds(target, rows) <==> id in store && Visible(target, store[id])
  {
    if id in store {
      var i :| 0 <= i < |rows| && rows[i].id == id;
      assert rows[i].ev == store[id];
    }
  }

  /** An unreadable date hides every row after it, visible or not. */
  lemma UnreadableRowCutsListing(target: Date, rows: seq<Row>, k: nat)
    requires ValidDate(target)
    requires forall i, j :: 0 <= i < j < |rows| ==> rows[i].id != rows[j].id
    requires k < |rows| && !HasAnchor(rows[k].ev)
    ensures forall j :: k <= j < |rows| ==> rows[j].id !in VisibleIds(target, rows[..ReadablePrefix(rows)])
  {
    var n := ReadablePrefix(rows);
    var listed := VisibleIds(target, rows[..n]);
    forall j | k <= j < |rows|
      ensures rows[j].id !in listed
    {
      assert forall i :: 0 <= i < n ==> rows[..n][i].id != rows[j].id;
    }
  }

  // ---------------------------------------------------------------------
  // Properties of the rule

  /** A non-recurring event shows exactly on its own date. */
  lemma NonRecurringOnlyOnItsDate(target: Date, ev: Event)
    requires ValidDate(target) && HasAnchor(ev)
    requires IsNonRecurring(ev.recurrenceType)
    ensures Visible(target, ev) <==> Anchor(ev) == target
  {
  }

  /** No event shows before its own date. */
  lemma NeverBeforeItsDate(target: Date, ev: Event)
    requires ValidDate(target) && HasAnchor(ev)
    requires Before(target, Anchor(ev))
    ensures !Visible(target, ev)
  {
  }

  /** A recurring event of any type string, recognised or not, shows on
      every day from its date on that the end test lets through. */
  lemma ShownWhileEndPermits(target: Date, ev: Event)
    requires ValidDate(target) && HasAnchor(ev)
    requires !IsNonRecurring(ev.recurrenceType)
    requires OnOrBefore(Anchor(ev), target)
    requires ev.recurrenceEnd.None? || ev.recurrenceEnd.value == ""
             || ParseDate(ev.recurrenceEnd.value).None?
             || OnOrBefore(target, ParseDate(ev.recurrenceEnd.value).value)
    ensures Visible(target, ev)
  {
  }

  /** A "Daily" event shows on every day from its date on, past its end too. */
  lemma DailyIgnoresEnd(target: Date, ev: Event)
    requires ValidDate(target) && HasAnchor(ev)
    requires ev.recurrenceType == Some(Daily)
    ensures Visible(target, ev) <==> OnOrBefore(Anchor(ev), target)
  {
  }

  /** Past a readable end date only the type test decides, and each type's
      test is the one the code spells out; other types are hidden. */
  lemma AfterEndOnlyTypeTest(target: Date, ev: Event, last: Date)
    requires ValidDate(target) && HasAnchor(ev)
    requires !IsNonRecurring(ev.recurrenceType)
    requires ev.recurrenceEnd.Some? && ParseDate(ev.recurrenceEnd.value) == Some(last)
    requires Before(last, target)
    ensures var t := ev.recurrenceType.value; var a := Anchor(ev);
      && (t == Weekly ==> (Visible(target, ev) <==> OnOrBefore(a, target) && Weekday(a) == Weekday(target)))
      && (t == WeeklySpecificDays ==>
            (Visible(target, ev) <==> OnOrBefore(a, target) && WeekdayName(target) in ParseDays(ev.recurrenceDays)))
      && (t == Monthly ==> (Visible(target, ev) <==> OnOrBefore(a, target) && a.day == target.day))
      && (t == Yearly ==> (Visible(target, ev) <==> OnOrBefore(a, target) && a.month == target.month && a.day == target.day))
      && (t !in {Daily, Weekly, WeeklySpecificDays, Monthly, Yearly} ==> !Visible(target, ev))
  {
  }

  /** A "Weekly" event without an end date shows on every day from its date
      on, not only on its own weekday. */
  lemma WeeklyWithoutEndShowsDaily(target: Date, ev: Event)
    requires ValidDate(target) && HasAnchor(ev)
    requires ev.recurrenceType == Some(Weekly)
    requires ev.recurrenceEnd.None? || ev.recurrenceEnd == Some("")
    ensures Visible(target, ev) <==> OnOrBefore(Anchor(ev), target)
  {
  }

  /** A "Monthly" event dated the 31st is hidden, past its end, in months
      of 30 days or fewer: no rounding to the month's last day. */
  lemma MonthlyOn31stSkipsShortMonths(target: Date, ev: Event, last: Date)
    requires ValidDate(target) && HasAnchor(ev)
    requires ev.recurrenceType == Some(Monthly) && Anchor(ev).day == 31
    requires ev.recurrenceEnd.Some? && ParseDate(ev.recurrenceEnd.value) == Some(last)
    requires Before(last, target)
    requires DaysInMonth(target.year, target.month) < 31
    ensures !Visible(target, ev)
  {
  }

  /** A concrete instance: "Weekly" from Wednesday 2024-01-10 with no end
      shows on Thursday 2024-01-11. */
  lemma WeeklyShownOffItsWeekday()
    ensures var ev := Event("2024-01-10", "Algebra", "09:00", "Room 1", None, None,
                            Some(Weekly), None, None, None);
            && HasAnchor(ev) && Anchor(ev) == Date(2024, 1, 10)
            && Weekday(Date(2024, 1, 10)) == 2 && Weekday(Date(2024, 1, 11)) == 3
            && Visible(Date(2024, 1, 11), ev)
  {
    ParseFormatDate(Date(2024, 1, 10));
    assert FormatDate(Date(2024, 1, 10)) == "2024-01-10";
  }

  /** A concrete instance: "Daily" from 2024-01-10 ending 2024-01-15 still
      shows on 2024-01-16. */
  lemma DailyShownPastItsEnd()
    ensures var ev := Event("2024-01-10", "Algebra", "09:00", "Room 1", None, None,
                            Some(Daily), Some("2024-01-15"), None, None);
            && HasAnchor(ev)
            && ParseDate("2024-01-15") == Some(Date(2024, 1, 15))
            && Visible(Date(2024, 1, 16), ev)
  {
    ParseFormatDate(Date(2024, 1, 10));
    assert FormatDate(Date(2024, 1, 10)) == "2024-01-10";
    ParseFormatDate(Date(2024, 1, 15));
    assert FormatDate(Date(2024, 1, 15)) == "2024-01-15";
  }
}
